=== FILE: README.md ===
# koche — a Dafny model

koche is a small command-line tool that enforces the Conventional Commits
header shape on a git repository. `koche -i` installs it as the repository's
`commit-msg` hook, `koche -r` is meant to remove that hook, and `koche -v`
prints the version. When git runs the hook, koche reads the commit-message
file and exits with status 1 if the message does not start with a
conventional-commit header.

This project models the three pieces of logic in `main.go` and proves
properties about them:

- `wrappers.dfy`, module `Wrappers`: `Option`.
- `grammar.dfy`, module `CommitGrammar`: the header pattern
  `^(feat|fix|docs|style|refactor|perf|test|chore)(\(.+\))?!?: .+` as Go's
  RE2 applies it with `MatchString`. `.` does not match a newline, and there
  is no end anchor. The pattern is stated twice:
  - `Matches` is a declarative predicate. It holds when the string splits
    into a type token, an optional scope group, an optional `!`, `": "`, and
    a description that starts with a non-newline character.
  - `Accepts` is a deterministic recogniser. It scans forward for the
    scope's closing `)`.
  - `AcceptsIffMatches` proves the two agree on every string.
- `hooks.dfy`, module `HookManager`: `setupGitHook`, `removeGitHook` and
  `checkFileExists` as guarded transitions over an abstract filesystem.
  The filesystem records whether `.git` exists, the hook file if there is
  one, and for each path whether `os.Stat` fails with an error other than
  "does not exist". Faults are parameters: a failed delete, and a failed
  write, which either fails at the open and creates nothing or fails after
  the open has created the file. Every transition returns the state it
  leaves, also when it fails.
- `koche.dfy`, module `Koche`: how `run` picks a mode, how
  `verifyCommitMessage` rebuilds the message from the file's lines, the
  resulting `Outcome` (`Version | Setup | Remove | Usage | OpenFail |
  Invalid | Valid`), and its exit status.

The model follows the code as written, in five places:

- The second guard of `removeGitHook` (`main.go:98`) tests for the hook
  file with the same polarity as the installer. So the program's remove
  can never delete an installed hook (symbolic links aside, see below). `RemoveGitHook` models that, and
  `RemoveNeverDeletes` proves it. `RemoveGitHookFixed` is a separate,
  corrected remove: it fails when the hook is absent and deletes it when
  present. `FixedRemoveUndoesSetup` proves it undoes a successful install.
  `Run` uses the as-written remove, because it models the program.
- A wrong argument count in validate mode prints a hint and returns with
  status 0 (`main.go:114-117`). It is not a failure exit.
- `-v`, `-i` and `-r` are not mutually exclusive in the code. The first
  one set wins, in that order (`main.go:33-56`).
- `checkFileExists` reports "exists" for every stat error except "does not
  exist" (`main.go:152-163`).
- `setupGitHook` hands its error straight back when `os.WriteFile` fails
  (`main.go:81-84`). `os.WriteFile` creates the file before it writes, so
  a failed install can leave an empty or partial hook. Later installs then
  refuse because the file exists. `PartialSetupBlocksRetry` proves this.

## Model

| member | source | states |
|---|---|---|
| CommitGrammar.AcceptsIffMatches | main.go:142-145 | The recogniser accepts a string exactly when the pattern matches it. A match is a type token, then an optional parenthesised scope of one or more non-newline characters (which may contain `(`, `)`, `:` and spaces), an optional `!`, `": "`, one non-newline character, and anything after that. |
| CommitGrammar.TypesPrefixFree | main.go:142 | No type token is a prefix of another, so at most one alternative of the first group applies to a string. |
| CommitGrammar.TypeCandidate | main.go:142 | For a non-empty string, names the one type token that could be its prefix: every token that is a prefix of the string is that token. |
| CommitGrammar.LeadingTypeUnique | main.go:142 | If a string starts with a type token, the recogniser picks that token. |
| CommitGrammar.LeadingType | main.go:142 | Returns a type token that is a prefix of the string. It returns none exactly when no token is a prefix. |
| CommitGrammar.CloseFromSound | main.go:142 | If the scan for the scope's `)` succeeds, there is a `)` with no newline before it, and a valid `!?: .` tail follows it. |
| CommitGrammar.CloseFromComplete | main.go:142 | If such a `)` exists, the scan finds one. |
| CommitGrammar.MatchesExtends | main.go:142 | There is no `$` anchor: a matching string stays matching whatever is appended to it. |
| CommitGrammar.AcceptsExtends | main.go:142 | The recogniser also accepts every extension of an accepted string. |
| CommitGrammar.MatchesWithinLine | main.go:142 | `.` excludes the newline, so a match never runs past the first line. If a newline-free line followed by a newline (or by nothing) matches, the line alone matches. |
| CommitGrammar.FirstLineDecides | main.go:138-145 | For a newline-free line `a`, `a + "\n" + rest` is accepted exactly when `a` is accepted. |
| CommitGrammar.AcceptedExamples | main.go:142-145 | `feat: add login flow`, `fix(auth): handle null token` and `chore!: drop legacy config` match and are accepted. |
| CommitGrammar.RejectedExamples | main.go:142-148 | `Added login flow`, `feat(): x`, `feat: ` and the empty string do not match and are rejected. |
| HookManager.Stat | main.go:153 | `os.Stat` on a path reports a failure exactly when that path's stat error is set. Otherwise it reports found or not-exist, in agreement with the filesystem. |
| HookManager.CheckFileExists | main.go:152-163 | Returns false exactly when the stat error is "does not exist". A successful stat and every other stat error read as "exists". |
| HookManager.WriteHook | main.go:80-85 | `os.WriteFile` succeeds exactly when `.git` is present and there is no fault. Without `.git` or with a failed open, nothing changes. Otherwise the file exists afterwards, even after a fault, and only the hook changes. It holds a prefix of the given content, and all of it on success. It has the requested bits if it was created, or keeps its old bits if it was truncated. |
| HookManager.RemoveHookFile | main.go:102-106 | `os.Remove` succeeds exactly when a hook is present and the delete does not fault. On success, only the hook is gone. On failure, nothing changes. With no hook, it fails with "no such file". |
| HookManager.SetupGitHook | main.go:60-88 | Fails with "not a git repository" exactly when `.git` is reported absent. Fails with "hook exists" exactly when `.git` is not reported absent and the hook is not reported absent. Both refusals leave the filesystem unchanged. Succeeds exactly when both guards pass and the write succeeds. On success, the hook is `#!/bin/bash\nkoche "$1"` with mode 0777, and nothing else changes. A failure that changed anything is a write fault after the file was created. It leaves, where there was no hook, a mode-0777 hook holding a prefix of the script, and nothing else changes. Whenever both guards pass and the install still fails, the error is the write error. |
| HookManager.RemoveGitHook | main.go:90-109 | As written: fails with "not a git repository" exactly when `.git` is reported absent. Fails with "hook exists" exactly when `.git` is not reported absent and the hook is not reported absent, which is the same guard as install. Both refusals leave the filesystem unchanged. |
| HookManager.RemoveGitHookFixed | main.go:90-109 | Corrected variant, not the program's behaviour. Fails with "hook not installed" exactly when the hook is reported absent. Succeeds exactly when a hook is present and the delete does not fault. A failed delete of a present hook returns that delete error. On success, only the hook is gone. On failure, nothing changes. |
| HookManager.TransitionsPreserveConsistent | main.go:60-109 | Install, remove and corrected remove all keep every hook file inside an existing `.git`. |
| HookManager.SetupTwiceFails | main.go:67-70 | After a successful install, a second install fails with "hook exists", and the installed hook is unchanged. |
| HookManager.PartialSetupBlocksRetry | main.go:67-85 | When the write fails after the file was created, the install fails and leaves the first bytes of the script (as many as were written) in a mode-0777 hook. Every later install then refuses with "hook exists". |
| HookManager.RemoveNeverDeletes | main.go:97-106 | As written, remove always fails and never changes the filesystem. With a hook present it stops at the guard. Otherwise `os.Remove` reports there is no such file. |
| HookManager.InstalledHookStays | main.go:60-109 | A hook installed by the program survives the program's remove. |
| HookManager.FixedRemoveUndoesSetup | main.go:60-109 | The corrected remove after a successful install restores the exact filesystem from before the install. |
| Koche.ExitStatus | main.go:111-150 | The exit status is 1 exactly for an open failure or a rejected message. It is 0 for every other outcome, including failed install or remove and a wrong argument count. |
| Koche.Message | main.go:136-139 | The rebuilt message is empty exactly when the file has no lines. |
| Koche.MessageFirstLine | main.go:136-139 | The rebuilt message is the first line, a newline, then the message of the remaining lines. |
| Koche.ReadMessage | main.go:134-139 | The scan loop appends each line and a newline. Its result is the concatenation of the lines, each followed by a newline, and it starts with the first line and a newline. |
| Koche.VerifyCommitMessage | main.go:111-150 | Usage exactly when the argument count is not 2. Open failure exactly when the count is 2 and the file did not open. Valid or Invalid exactly as the rebuilt message matches the pattern or not. |
| Koche.Run | main.go:31-58 | Exactly one mode runs, in the order `-v`, then `-i`, then `-r`, then validation. Install and remove run the hook transitions on the given filesystem. With no flag set, the outcome is that of `verifyCommitMessage` on the same argument count and file. |
| Koche.RunExitStatus | main.go:31-150 | An invocation exits with 1 exactly when no flag is set, the argument count is 2, and either the file did not open or the message does not match. |
| Koche.OnlyInstallWrites | main.go:31-109 | An invocation changes the filesystem only through `-i`, successful or not, and only where there was no hook. The change adds a mode-0777 hook holding the script or a prefix of it, and nothing else. |
| Koche.FirstLineDecidesValidation | main.go:134-145 | For lines without newlines, the message passes exactly when there is a first line and it matches. A file with no lines is rejected. |
| Koche.ValidationExamples | main.go:142-148 | A file holding one of the accepted example lines validates. A file holding `Added login flow` is invalid and exits with 1. |

## Left out

- The real OS calls `os.Stat`, `os.WriteFile`, `os.Remove` and `os.Open` are replaced by the abstract filesystem state and by fault parameters.
- HookManager.WriteHook: the 0777 mode is recorded as requested. The process umask is not applied.
- HookManager.WriteHook: a hooks directory missing inside `.git` is not modelled separately. It counts as a failed open.
- `bufio.Scanner` internals are not modelled: the 64 KiB token limit, the scan error the loop ignores, and the stripping of a trailing `\r`. The lines are an input, and the lemmas about them assume no line holds a newline, as the scanner guarantees.
- The deferred `Close` and its exit-with-1 path (`main.go:125-132`) are left out. They depend on the runtime behaviour of the file handle.
- All printed text is left out: usage, diagnostics, the help block and the version string. Only the outcome and the exit status are modelled.
- Flag parsing by the `flag` package and the global flag variables are left out. The flags arrive as a `Flags` value, and `len(os.Args)` arrives as a number.
- RE2 in general is left out. Only this one pattern is modelled, by a direct recogniser.
- HookManager.RemoveNeverDeletes: symbolic links are not modelled, so the lemma holds for a hook that is a regular file or absent. `os.Stat` follows a link, so a dangling link at `.git/hooks/commit-msg` reads as "does not exist" and passes the guard at `main.go:98`. `os.Remove` then deletes the link itself, and the program's remove succeeds.

=== FILE: grammar.dfy ===
/** The conventional-commit header pattern
      ^(feat|fix|docs|style|refactor|perf|test|chore)(\(.+\))?!?: .+
    as Go's RE2 applies it with MatchString: anchored at the start only, and
    with `.` matching any character except a newline.

    `Matches` is the declarative reading of the pattern (a decomposition of
    the string into its parts); `Accepts` is a deterministic recogniser;
    `AcceptsIffMatches` proves they agree on every string. */
module CommitGrammar {
  import opened Wrappers

  /** The eight type tokens of the first alternation group. */
  const Types: seq<string> := ["feat", "fix", "docs", "style", "refactor", "perf", "test", "chore"]

  /** No newline at any position of `s` from `lo` up to `hi`. */
  predicate NoNewlineIn(s: string, lo: nat, hi: nat) {
    forall i :: lo <= i < hi && i < |s| ==> s[i] != '\n'
  }

  /** Every character of `s` is one that RE2's `.` matches. */
  predicate NoNewline(s: string) {
    NoNewlineIn(s, 0, |s|)
  }

  /** The optional group `(\(.+\))?`: absent, or `(`, at least one
      non-newline character, and `)`. The scope text may itself hold
      parentheses, colons and spaces. */
  predicate ScopeGroup(g: string) {
    g == [] || (|g| >= 3 && g[0] == '(' && g[|g| - 1] == ')' && NoNewlineIn(g, 1, |g| - 1))
  }

  /** The optional breaking-change marker `!?`. */
  predicate Bang(b: string) {
    b == [] || b == "!"
  }

  /** `s` splits as type token, scope group, marker, `": "` and a
      description. The trailing `.+` needs only one non-newline character
      and there is no `$`, so the description is any string whose first
      character is not a newline. */
  predicate Header(s: string, t: string, g: string, b: string, d: string) {
    && s == t + g + b + ": " + d
    && t in Types
    && ScopeGroup(g)
    && Bang(b)
    && |d| > 0 && d[0] != '\n'
  }

  /** The pattern matches `s`. */
  ghost predicate Matches(s: string) {
    exists t, g, b, d :: Header(s, t, g, b, d)
  }

  // ---------------------------------------------------------------------
  // Deterministic recogniser

  /** The only type token a non-empty string can start with, chosen by
      its first one or two characters; the tokens are distinguished that
      early because none is a prefix of another. */
  function TypeCandidate(s: string): (t: string)
    requires |s| > 0
    ensures t in Types
    ensures forall u :: u in Types && u <= s ==> u == t
  {
    match s[0]
    case 'f' => if |s| > 1 && s[1] == 'i' then "fix" else "feat"
    case 'd' => "docs"
    case 's' => "style"
    case 'r' => "refactor"
    case 'p' => "perf"
    case 't' => "test"
    case _ => "chore"
  }

  /** The type token `s` starts with, if any. */
  function LeadingType(s: string): (r: Option<string>)
    ensures r.Some? ==> r.value in Types && r.value <= s
    ensures r.None? <==> forall t :: t in Types ==> !(t <= s)
  {
    if |s| == 0 then None
    else
      var t := TypeCandidate(s);
      if t <= s then Some(t) else None
  }

  /** At position `i`: `": "` followed by one description character. */
  predicate ColonAt(s: string, i: nat) {
    i + 2 < |s| && s[i] == ':' && s[i + 1] == ' ' && s[i + 2] != '\n'
  }

  /** At position `i`: the optional `!`, then `ColonAt`. */
  predicate TailAt(s: string, i: nat) {
    ColonAt(s, i) || (i < |s| && s[i] == '!' && ColonAt(s, i + 1))
  }

  /** Scans for the scope's closing `)` from position `k` on, assuming the
      scope text before `k` is already known to be free of newlines: either
      `s[k]` is a `)` that the rest of the header can follow, or `s[k]` is
      one more scope character and the scan moves on. */
  predicate CloseFrom(s: string, k: nat)
    decreases |s| - k
  {
    if k >= |s| then false
    else (s[k] == ')' && TailAt(s, k + 1)) || (s[k] != '\n' && CloseFrom(s, k + 1))
  }

  /** The recogniser: a type token, then either the tail directly or a
      `(`, one scope character and the scan for the closing `)`. */
  predicate Accepts(s: string) {
    match LeadingType(s)
    case None => false
    case Some(t) =>
      var n := |t|;
      TailAt(s, n) || (n + 1 < |s| && s[n] == '(' && s[n + 1] != '\n' && CloseFrom(s, n + 2))
  }

  // ---------------------------------------------------------------------
  // Facts about the tokens

  /** No type token is a prefix of another, so at most one alternative of
      the first group can apply to any string. */
  lemma TypesPrefixFree()
    ensures forall t, u :: t in Types && u in Types && t <= u ==> t == u
  {
    forall t, u | t in Types && u in Types && t <= u ensures t == u {
      assert t[0] == u[0] && t[1] == u[1];
    }
  }

  /** The type tokens hold no newline. */
  lemma TypesNoNewline()
    ensures forall t :: t in Types ==> NoNewline(t)
  {
  }

  /** The token a string starts with is the one the recogniser picks. */
  lemma LeadingTypeUnique(s: string, t: string)
    requires t in Types && t <= s
    ensures LeadingType(s) == Some(t)
  {
  }

  // ---------------------------------------------------------------------
  // The scan for the closing parenthesis

  /** `CloseFrom(s, k)` holds exactly when some `)` at or after `k`, with
      no newline between `k` and it, is followed by a valid tail. */
  lemma {:induction false} CloseFromSound(s: string, k: nat)
    requires CloseFrom(s, k)
    ensures exists c :: k <= c < |s| && s[c] == ')' && TailAt(s, c + 1) && NoNewlineIn(s, k, c)
    decreases |s| - k
  {
    if s[k] == ')' && TailAt(s, k + 1) {
      assert NoNewlineIn(s, k, k);
    } else {
      CloseFromSound(s, k + 1);
      var c :| k + 1 <= c < |s| && s[c] == ')' && TailAt(s, c + 1) && NoNewlineIn(s, k + 1, c);
      assert NoNewlineIn(s, k, c);
    }
  }

  lemma {:induction false} CloseFromComplete(s: string, k: nat, c: nat)
    requires k <= c < |s| && s[c] == ')' && TailAt(s, c + 1) && NoNewlineIn(s, k, c)
    ensures CloseFrom(s, k)
    decreases c - k
  {
    if k < c {
      CloseFromComplete(s, k + 1, c);
    }
  }

  // ---------------------------------------------------------------------
  // Recogniser and pattern agree

  /** Where each part of a header decomposition lies in the string. */
  lemma HeaderParts(s: string, t: string, g: string, b: string, d: string)
    requires s == t + g + b + ": " + d
    ensures s[..|t|] == t
    ensures s[|t|..|t| + |g|] == g
    ensures s[|t| + |g|..|t| + |g| + |b|] == b
    ensures s[|t| + |g| + |b|..|t| + |g| + |b| + 2] == ": "
    ensures s[|t| + |g| + |b| + 2..] == d
  {
    var x := t + g;
    var y := x + b;
    var z := y + ": ";
    assert s == z + d;
    assert s[..|z|] == z;
    assert z[..|y|] == y;
    assert y[..|x|] == x;
    assert s[..|t|] == x[..|t|];
    assert s[|t|..|t| + |g|] == x[|t|..];
    assert s[|x|..|y|] == y[|x|..];
    assert s[|y|..|z|] == z[|y|..];
  }

  /** The part of a header that the pattern itself consumes (everything up
      to and including the first description character) holds no newline. */
  lemma HeaderLineNoNewline(s: string, t: string, g: string, b: string, d: string)
    requires Header(s, t, g, b, d)
    ensures |t| + |g| + |b| + 3 <= |s|
    ensures NoNewlineIn(s, 0, |t| + |g| + |b| + 3)
  {
    HeaderParts(s, t, g, b, d);
    TypesNoNewline();
    var n := |t|;
    var p := n + |g| + |b|;
    forall i | 0 <= i < p + 3 ensures s[i] != '\n' {
      if i < n {
        assert s[i] == s[..n][i];
      } else if i < n + |g| {
        assert s[i] == s[n..n + |g|][i - n];
      } else if i < p {
        assert s[i] == s[n + |g|..p][i - n - |g|];
      } else if i < p + 2 {
        assert s[i] == s[p..p + 2][i - p];
      } else {
        assert s[i] == s[p + 2..][0];
      }
    }
  }

  lemma TailAtFromHeader(s: string, t: string, g: string, b: string, d: string)
    requires Header(s, t, g, b, d)
    ensures TailAt(s, |t| + |g|)
  {
    HeaderParts(s, t, g, b, d);
    var i := |t| + |g|;
    var p := i + |b|;
    assert s[p] == s[p..p + 2][0] && s[p + 1] == s[p..p + 2][1];
    assert s[p + 2] == s[p + 2..][0];
    if b != [] {
      assert s[i] == s[i..p][0];
    }
  }

  /** A scope group sitting at position `n` of `s` and followed by a valid
      tail is found by the scan for `)`. */
  lemma ScopeScan(s: string, g: string, n: nat)
    requires ScopeGroup(g) && g != [] && n + |g| <= |s| && s[n..n + |g|] == g
    requires TailAt(s, n + |g|)
    ensures s[n] == '(' && s[n + 1] != '\n' && CloseFrom(s, n + 2)
  {
    forall i | n <= i < n + |g| ensures s[i] == g[i - n] {
      assert s[n..n + |g|][i - n] == s[i];
    }
    CloseFromComplete(s, n + 2, n + |g| - 1);
  }

  /** The scope group of a header is found by the scan for `)`. */
  lemma ScopeFound(s: string, t: string, g: string, b: string, d: string)
    requires Header(s, t, g, b, d) && g != []
    ensures |t| + 1 < |s| && s[|t|] == '(' && s[|t| + 1] != '\n' && CloseFrom(s, |t| + 2)
  {
    var n := |t|;
    assert n + |g| <= |s| && s[n..n + |g|] == g by {
      HeaderParts(s, t, g, b, d);
    }
    assert TailAt(s, n + |g|) by {
      TailAtFromHeader(s, t, g, b, d);
    }
    ScopeScan(s, g, n);
  }

  lemma HeaderAccepted(s: string, t: string, g: string, b: string, d: string)
    requires Header(s, t, g, b, d)
    ensures Accepts(s)
  {
    HeaderParts(s, t, g, b, d);
    LeadingTypeUnique(s, t);
    if g == [] {
      TailAtFromHeader(s, t, g, b, d);
    } else {
      ScopeFound(s, t, g, b, d);
    }
  }

  lemma MatchesImpliesAccepts(s: string)
    requires Matches(s)
    ensures Accepts(s)
  {
    var t, g, b, d :| Header(s, t, g, b, d);
    HeaderAccepted(s, t, g, b, d);
  }

  /** Cutting `s` at `i` and `j` and gluing the three pieces back gives `s`. */
  lemma SplitTwice(s: string, i: nat, j: nat)
    requires i <= j <= |s|
    ensures s == s[..i] + s[i..j] + s[j..]
  {
    assert s[..j] == s[..i] + s[i..j];
    assert s == s[..j] + s[j..];
  }

  /** A witness decomposition for a string whose tail starts at `i`. */
  lemma HeaderFromTail(s: string, t: string, g: string, i: nat)
    requires t in Types && ScopeGroup(g) && i <= |s| && s[..i] == t + g && TailAt(s, i)
    ensures Matches(s)
  {
    if ColonAt(s, i) {
      var d := s[i + 2..];
      assert s == t + g + [] + ": " + d by {
        SplitTwice(s, i, i + 2);
        assert s[i..i + 2] == ": ";
        assert t + g + [] == t + g;
      }
      assert Header(s, t, g, [], d);
    } else {
      var d := s[i + 3..];
      assert s == t + g + "!" + ": " + d by {
        SplitTwice(s, i, i + 1);
        SplitTwice(s[i + 1..], 0, 2);
        assert s[i + 1..][2..] == d;
        assert s[i + 1..][..0] == [];
        assert s[i + 1..][0..2] == ": ";
        assert s[i..i + 1] == "!";
      }
      assert Header(s, t, g, "!", d);
    }
  }

  /** A scope group closed at `c` and a valid tail after it give a match. */
  lemma ScopedHeader(s: string, t: string, c: nat)
    requires t in Types && |t| + 2 <= c < |s| && s[..|t|] == t
    requires s[|t|] == '(' && s[|t| + 1] != '\n' && NoNewlineIn(s, |t| + 2, c)
    requires s[c] == ')' && TailAt(s, c + 1)
    ensures Matches(s)
  {
    var n := |t|;
    var g := s[n..c + 1];
    assert NoNewlineIn(g, 1, |g| - 1) by {
      forall i | 1 <= i < |g| - 1 ensures g[i] != '\n' {
        assert g[i] == s[n + i];
      }
    }
    assert ScopeGroup(g);
    assert s[..c + 1] == s[..n] + g;
    assert s[..c + 1] == t + g;
    HeaderFromTail(s, t, g, c + 1);
  }

  lemma AcceptsImpliesMatches(s: string)
    requires Accepts(s)
    ensures Matches(s)
  {
    var t := LeadingType(s).value;
    var n := |t|;
    assert s[..n] == t;
    if TailAt(s, n) {
      assert s[..n] == t + [];
      HeaderFromTail(s, t, [], n);
    } else {
      CloseFromSound(s, n + 2);
      var c :| n + 2 <= c < |s| && s[c] == ')' && TailAt(s, c + 1) && NoNewlineIn(s, n + 2, c);
      ScopedHeader(s, t, c);
    }
  }

  /** The recogniser decides exactly the pattern. */
  lemma AcceptsIffMatches(s: string)
    ensures Accepts(s) <==> Matches(s)
  {
    if Accepts(s) {
      AcceptsImpliesMatches(s);
    }
    if Matches(s) {
      MatchesImpliesAccepts(s);
    }
  }

  // ---------------------------------------------------------------------
  // Properties of the pattern

  /** With no `$` anchor, anything may follow a matching header. */
  lemma MatchesExtends(s: string, u: string)
    requires Matches(s)
    ensures Matches(s + u)
  {
    var t, g, b, d :| Header(s, t, g, b, d);
    assert s + u == t + g + b + ": " + (d + u);
    assert Header(s + u, t, g, b, d + u);
  }

  /** The recogniser accepts every extension of an accepted string. */
  lemma AcceptsExtends(s: string, u: string)
    requires Accepts(s)
    ensures Accepts(s + u)
  {
    AcceptsIffMatches(s);
    MatchesExtends(s, u);
    AcceptsIffMatches(s + u);
  }

  /** A match never crosses a newline: if `s` is a newline-free line `a`
      followed by nothing or by a newline, the match lies inside `a`. */
  lemma MatchesWithinLine(a: string, b: string)
    requires NoNewline(a)
    requires b == [] || b[0] == '\n'
    requires Matches(a + b)
    ensures Matches(a)
  {
    var s := a + b;
    var t, g, b', d :| Header(s, t, g, b', d);
    HeaderParts(s, t, g, b', d);
    HeaderLineNoNewline(s, t, g, b', d);
    var p := |t| + |g| + |b'| + 2;
    if |a| < |s| {
      assert s[|a|] == b[0] == '\n';
    }
    assert p + 1 <= |a|;
    var d' := a[p..];
    assert a == t + g + b' + ": " + d' by {
      assert a[..p] == s[..p];
      assert s[..p] == t + g + b' + ": ";
      assert a == a[..p] + d';
    }
    assert d'[0] == a[p] == s[p] == s[p..][0] == d[0];
    assert Header(a, t, g, b', d');
  }

  /** The recogniser's verdict on a newline-free line is unchanged by
      anything after a newline that ends it. */
  lemma FirstLineDecides(a: string, rest: string)
    requires NoNewline(a)
    ensures Accepts(a + "\n" + rest) <==> Accepts(a)
  {
    var b := "\n" + rest;
    assert a + "\n" + rest == a + b;
    AcceptsIffMatches(a);
    AcceptsIffMatches(a + b);
    if Matches(a + b) {
      MatchesWithinLine(a, b);
    }
    if Matches(a) {
      MatchesExtends(a, b);
    }
  }

  // ---------------------------------------------------------------------
  // Worked cases

  /** A header decomposition is a match, and so an acceptance. */
  lemma HeaderExample(s: string, t: string, g: string, b: string, d: string)
    requires Header(s, t, g, b, d)
    ensures Matches(s) && Accepts(s)
  {
    AcceptsIffMatches(s);
  }

  lemma AcceptsPlain()
    ensures Matches("feat: add login flow") && Accepts("feat: add login flow")
  {
    HeaderExample("feat: add login flow", "feat", [], [], "add login flow");
  }

  lemma AcceptsScoped()
    ensures Matches("fix(auth): handle null token") && Accepts("fix(auth): handle null token")
  {
    HeaderExample("fix(auth): handle null token", "fix", "(auth)", [], "handle null token");
  }

  lemma AcceptsBreaking()
    ensures Matches("chore!: drop legacy config") && Accepts("chore!: drop legacy config")
  {
    HeaderExample("chore!: drop legacy config", "chore", [], "!", "drop legacy config");
  }

  /** Headers the pattern accepts, including a scope and a breaking-change marker. */
  lemma AcceptedExamples()
    ensures Matches("feat: add login flow") && Accepts("feat: add login flow")
    ensures Matches("fix(auth): handle null token") && Accepts("fix(auth): handle null token")
    ensures Matches("chore!: drop legacy config") && Accepts("chore!: drop legacy config")
  {
    AcceptsPlain();
    AcceptsScoped();
    AcceptsBreaking();
  }

  lemma RejectsUntyped()
    ensures !Matches("Added login flow") && !Accepts("Added login flow")
  {
    forall t | t in Types ensures !(t <= "Added login flow") {
      assert t[0] != 'A';
    }
    AcceptsIffMatches("Added login flow");
  }

  lemma RejectsEmptyScope()
    ensures !Matches("feat(): x") && !Accepts("feat(): x")
  {
    var s := "feat(): x";
    LeadingTypeUnique(s, "feat");
    assert !CloseFrom(s, 9);
    assert !CloseFrom(s, 8);
    assert !CloseFrom(s, 7);
    assert !CloseFrom(s, 6);
    AcceptsIffMatches(s);
  }

  lemma RejectsEmptyDescription()
    ensures !Matches("feat: ") && !Accepts("feat: ")
  {
    LeadingTypeUnique("feat: ", "feat");
    AcceptsIffMatches("feat: ");
  }

  lemma RejectsEmpty()
    ensures !Matches("") && !Accepts("")
  {
    AcceptsIffMatches("");
  }

  /** Strings the pattern rejects: no type token, an empty scope, an empty
      description, and the empty string. */
  lemma RejectedExamples()
    ensures !Matches("Added login flow") && !Accepts("Added login flow")
    ensures !Matches("feat(): x") && !Accepts("feat(): x")
    ensures !Matches("feat: ") && !Accepts("feat: ")
    ensures !Matches("") && !Accepts("")
  {
    RejectsUntyped();
    RejectsEmptyScope();
    RejectsEmptyDescription();
    RejectsEmpty();
  }
}

=== FILE: hooks.dfy ===
/** Installing and removing the `commit-msg` hook, as guarded transitions
    over an abstract view of the two paths the program looks at: the
    repository marker `.git` and the hook file `.git/hooks/commit-msg`.

    The operating system's answers (`os.Stat`, `os.WriteFile`, `os.Remove`)
    are read off the state, and the faults the state cannot predict (a
    failed write, a failed delete) are parameters. Every transition
    returns the state it leaves, also when it fails. */
module HookManager {
  import opened Wrappers

  /** The two paths the program inspects. */
  datatype Path = GitDir | HookFile

  /** A file written with `os.WriteFile`: its bytes and the permission bits
      asked for (the process umask is not applied). */
  datatype Hook = Hook(content: string, mode: nat)

  /** What the program can observe of the repository:
      - `gitDir`: whether `.git` exists;
      - `hook`: the hook file, if there is one;
      - `gitStatFails` / `hookStatFails`: whether `os.Stat` on that path
        fails with an error other than "does not exist" (a permission
        error, say). */
  datatype FileSystem = FileSystem(
    gitDir: bool,
    gitStatFails: bool,
    hook: Option<Hook>,
    hookStatFails: bool)

  /** What `os.Stat` reports for a path. */
  datatype StatResult = Found | NotExist | StatFailed

  /** The error `os.Remove` returns. */
  datatype RemoveError = NoSuchFile | DeleteFailed

  /** Why an install or remove failed. */
  datatype HookError =
    | NotAGitRepository     // "can not find .git folder"
    | HookAlreadyExists     // "pre-commit file exists"
    | HookNotInstalled      // only in the corrected remove
    | WriteFailed           // the error of os.WriteFile
    | RemoveFailed(reason: RemoveError) // the error of os.Remove

  /** How `os.WriteFile` can fail. It opens the file (creating or
      truncating it) before it writes and closes, so a failure either
      comes before anything exists or after the file is already there:
      - `OpenFault`: the open fails and nothing is created;
      - `AfterCreate(written)`: the open succeeds, and the write or the
        close fails after `written` bytes (all of them, for a failed
        close). */
  datatype WriteFault = NoFault | OpenFault | AfterCreate(written: nat)

  /** The result of a transition together with the state it leaves:
      a failure can still have changed the filesystem. */
  datatype Transition = Done(after: FileSystem) | Failed(error: HookError, after: FileSystem)

  /** The script the installer writes: a bash shebang and a line that runs
      the program on the message file the version-control tool passes. */
  const HookScript: string := "#!/bin/bash\nkoche \"$1\""

  /** The permission bits requested for the script, octal 0777. */
  const HookMode: nat := 0x1FF

  const InstalledHook: Hook := Hook(HookScript, HookMode)

  /** A hook file lives inside `.git`. */
  predicate Consistent(fs: FileSystem) {
    fs.hook.Some? ==> fs.gitDir
  }

  /** The answer of `os.Stat` for a path. */
  function Stat(fs: FileSystem, p: Path): (r: StatResult)
    ensures r == StatFailed <==> (if p == GitDir then fs.gitStatFails else fs.hookStatFails)
    ensures r == Found ==> (if p == GitDir then fs.gitDir else fs.hook.Some?)
    ensures r == NotExist ==> (if p == GitDir then !fs.gitDir else fs.hook.None?)
  {
    match p
    case GitDir => if fs.gitStatFails then StatFailed else if fs.gitDir then Found else NotExist
    case HookFile => if fs.hookStatFails then StatFailed else if fs.hook.Some? then Found else NotExist
  }

  /** `checkFileExists`: false only when the stat error is "does not
      exist"; a successful stat and every other stat error both read as
      "exists". */
  function CheckFileExists(fs: FileSystem, p: Path): (exists_: bool)
    ensures !exists_ <==> Stat(fs, p) == NotExist
    ensures (if p == GitDir then fs.gitStatFails else fs.hookStatFails) ==> exists_
    ensures !exists_ ==> (if p == GitDir then !fs.gitDir else fs.hook.None?)
  {
    match Stat(fs, p)
    case NotExist => false
    case Found => true
    case StatFailed => true
  }

  /** `os.WriteFile` on the hook path. The open creates the file with the
      requested bits, or truncates an existing one and keeps its bits; it
      fails when `.git` is not there. A fault after the open leaves the
      bytes written so far. */
  function WriteHook(fs: FileSystem, h: Hook, fault: WriteFault): (r: Transition)
    ensures r.Done? <==> fs.gitDir && fault == NoFault
    ensures r.Failed? ==> r.error == WriteFailed
    ensures !fs.gitDir || fault == OpenFault ==> r.after == fs
    ensures fs.gitDir && fault != OpenFault ==>
      && r.after.(hook := fs.hook) == fs
      && r.after.hook.Some?
      && r.after.hook.value.content <= h.content
      && r.after.hook.value.mode == (if fs.hook.Some? then fs.hook.value.mode else h.mode)
    ensures r.Done? ==> r.after.hook.value.content == h.content
  {
    if !fs.gitDir || fault == OpenFault then Failed(WriteFailed, fs)
    else
      var mode := if fs.hook.Some? then fs.hook.value.mode else h.mode;
      match fault
      case NoFault => Done(fs.(hook := Some(Hook(h.content, mode))))
      case AfterCreate(n) =>
        var k := if n < |h.content| then n else |h.content|;
        Failed(WriteFailed, fs.(hook := Some(Hook(h.content[..k], mode))))
  }

  /** `os.Remove` on the hook path: it fails with "does not exist" when
      there is no hook, and with another error when the delete fails. */
  function RemoveHookFile(fs: FileSystem, fault: bool): (r: Transition)
    ensures r.Done? <==> fs.hook.Some? && !fault
    ensures r.Done? ==> r.after == fs.(hook := None)
    ensures r.Failed? ==> r.after == fs
    ensures fs.hook.None? ==> r == Failed(RemoveFailed(NoSuchFile), fs)
  {
    if fs.hook.None? then Failed(RemoveFailed(NoSuchFile), fs)
    else if fault then Failed(RemoveFailed(DeleteFailed), fs)
    else Done(fs.(hook := None))
  }

  /** `setupGitHook`: refuse outside a repository, refuse to overwrite an
      existing hook, otherwise write the script. */
  function SetupGitHook(fs: FileSystem, writeFault: WriteFault): (r: Transition)
    ensures r == Failed(NotAGitRepository, fs) <==> Stat(fs, GitDir) == NotExist
    ensures r == Failed(HookAlreadyExists, fs) <==> Stat(fs, GitDir) != NotExist && Stat(fs, HookFile) != NotExist
    ensures r.Done? <==>
      Stat(fs, GitDir) != NotExist && Stat(fs, HookFile) == NotExist && fs.gitDir && writeFault == NoFault
    ensures r.Done? ==> r.after.hook == Some(InstalledHook) && r.after.(hook := fs.hook) == fs
    ensures r.Failed? && r.after != fs ==>
      && r.error == WriteFailed && writeFault.AfterCreate?
      && fs.hook.None? && r.after.(hook := fs.hook) == fs
      && r.after.hook.Some? && r.after.hook.value.mode == HookMode
      && r.after.hook.value.content <= HookScript
    ensures Stat(fs, GitDir) != NotExist && Stat(fs, HookFile) == NotExist && r.Failed? ==>
      r.error == WriteFailed
  {
    if !CheckFileExists(fs, GitDir) then Failed(NotAGitRepository, fs)
    else if CheckFileExists(fs, HookFile) then Failed(HookAlreadyExists, fs)
    else WriteHook(fs, InstalledHook, writeFault)
  }

  /** `removeGitHook` as the program has it: its second guard fails when
      the hook exists, the same test the installer makes, so `os.Remove`
      is only reached when there is nothing to remove. */
  function RemoveGitHook(fs: FileSystem, removeFault: bool): (r: Transition)
    ensures r == Failed(NotAGitRepository, fs) <==> Stat(fs, GitDir) == NotExist
    ensures r == Failed(HookAlreadyExists, fs) <==> Stat(fs, GitDir) != NotExist && Stat(fs, HookFile) != NotExist
  {
    if !CheckFileExists(fs, GitDir) then Failed(NotAGitRepository, fs)
    else if CheckFileExists(fs, HookFile) then Failed(HookAlreadyExists, fs)
    else RemoveHookFile(fs, removeFault)
  }

  /** The corrected remove, which is not what the program does: fail when
      the hook is absent, delete it when present. */
  function RemoveGitHookFixed(fs: FileSystem, removeFault: bool): (r: Transition)
    ensures r == Failed(NotAGitRepository, fs) <==> Stat(fs, GitDir) == NotExist
    ensures r == Failed(HookNotInstalled, fs) <==> Stat(fs, GitDir) != NotExist && Stat(fs, HookFile) == NotExist
    ensures r.Done? <==> Stat(fs, GitDir) != NotExist && fs.hook.Some? && !removeFault
    ensures r.Done? ==> r.after.hook.None? && r.after.(hook := fs.hook) == fs
    ensures r.Failed? ==> r.after == fs
    ensures Stat(fs, GitDir) != NotExist && fs.hook.Some? && removeFault ==>
      r == Failed(RemoveFailed(DeleteFailed), fs)
  {
    if !CheckFileExists(fs, GitDir) then Failed(NotAGitRepository, fs)
    else if !CheckFileExists(fs, HookFile) then Failed(HookNotInstalled, fs)
    else RemoveHookFile(fs, removeFault)
  }

  // ---------------------------------------------------------------------
  // Properties

  /** Installing and removing keep a hook file inside `.git`. */
  lemma TransitionsPreserveConsistent(fs: FileSystem, writeFault: WriteFault, removeFault: bool)
    requires Consistent(fs)
    ensures Consistent(SetupGitHook(fs, writeFault).after)
    ensures Consistent(RemoveGitHook(fs, removeFault).after)
    ensures Consistent(RemoveGitHookFixed(fs, removeFault).after)
  {
  }

  /** A second install fails because the hook now exists, and the hook
      written by the first is left as it was. */
  lemma SetupTwiceFails(fs: FileSystem, fault1: WriteFault, fault2: WriteFault)
    requires SetupGitHook(fs, fault1).Done?
    ensures var fs1 := SetupGitHook(fs, fault1).after;
      && SetupGitHook(fs1, fault2) == Failed(HookAlreadyExists, fs1)
      && SetupGitHook(fs1, fault2).after.hook == Some(InstalledHook)
  {
  }

  /** An install whose write fails after the file was created leaves the
      first bytes of the script behind, with the requested bits, and every
      later install refuses because the file now exists. */
  lemma PartialSetupBlocksRetry(fs: FileSystem, written: nat, fault2: WriteFault)
    requires Stat(fs, GitDir) != NotExist && Stat(fs, HookFile) == NotExist && fs.gitDir
    ensures var r := SetupGitHook(fs, AfterCreate(written));
      var k := if written < |HookScript| then written else |HookScript|;
      && r == Failed(WriteFailed, fs.(hook := Some(Hook(HookScript[..k], HookMode))))
      && SetupGitHook(r.after, fault2) == Failed(HookAlreadyExists, r.after)
  {
  }

  /** As the program is written, removing never succeeds: with a hook in
      place it stops at the guard, and without one `os.Remove` reports
      that there is no file. No state is ever changed. The filesystem here
      has no symbolic links; a dangling link at the hook path would pass
      the guard and be deleted. */
  lemma RemoveNeverDeletes(fs: FileSystem, removeFault: bool)
    ensures RemoveGitHook(fs, removeFault).Failed?
    ensures RemoveGitHook(fs, removeFault).after == fs
    ensures fs.hook.Some? && Stat(fs, GitDir) != NotExist ==>
      RemoveGitHook(fs, removeFault) == Failed(HookAlreadyExists, fs)
    ensures Stat(fs, GitDir) != NotExist && Stat(fs, HookFile) == NotExist ==>
      RemoveGitHook(fs, removeFault) == Failed(RemoveFailed(NoSuchFile), fs)
  {
  }

  /** A hook installed by the program cannot be removed by it. */
  lemma InstalledHookStays(fs: FileSystem, writeFault: WriteFault, removeFault: bool)
    requires SetupGitHook(fs, writeFault).Done?
    ensures var fs1 := SetupGitHook(fs, writeFault).after;
      RemoveGitHook(fs1, removeFault).after.hook == Some(InstalledHook)
  {
    RemoveNeverDeletes(SetupGitHook(fs, writeFault).after, removeFault);
  }

  /** With the corrected remove, removing undoes installing exactly. */
  lemma FixedRemoveUndoesSetup(fs: FileSystem, writeFault: WriteFault)
    requires SetupGitHook(fs, writeFault).Done?
    ensures RemoveGitHookFixed(SetupGitHook(fs, writeFault).after, false) == Done(fs)
  {
  }
}

=== FILE: koche.dfy ===
/** One invocation of the program: the choice among its four modes, the
    rebuilding of the commit message from the lines of the message file,
    and the outcome with the process exit status. Flag parsing, printing and
    the operating system are outside: the flags, the argument count, the
    filesystem and the result of opening the message file are inputs. */
module Koche {
  import opened Wrappers
  import opened CommitGrammar
  import opened HookManager

  /** The switches `-v`, `-i` and `-r`. */
  datatype Flags = Flags(printVersion: bool, install: bool, remove: bool)

  /** What one invocation did. */
  datatype Outcome =
    | Version                                       // `-v`: print the version
    | Setup(setup: Transition)                      // `-i`: install the hook
    | Remove(remove: Transition)                    // `-r`: remove the hook
    | Usage                                         // not exactly one argument
    | OpenFail                                      // the message file did not open
    | Invalid                                       // the header does not match
    | Valid                                         // the header matches

  /** The process exit status: 1 only when the message file could not be
      opened or the message was rejected; a failed install or remove and a
      wrong argument count still exit with 0. */
  function ExitStatus(o: Outcome): (code: nat)
    ensures code == 1 <==> o == OpenFail || o == Invalid
    ensures code == 0 <==> !(o == OpenFail || o == Invalid)
  {
    match o
    case OpenFail => 1
    case Invalid => 1
    case _ => 0
  }

  /** The commit message the scanner loop builds: every line, in order,
      each followed by a newline. */
  function Message(lines: seq<string>): (m: string)
    ensures |lines| == 0 <==> m == ""
  {
    if lines == [] then "" else Message(lines[..|lines| - 1]) + lines[|lines| - 1] + "\n"
  }

  /** The message starts with its first line and a newline; what follows
      is the message of the remaining lines. */
  lemma {:induction false} MessageFirstLine(lines: seq<string>)
    requires |lines| > 0
    ensures Message(lines) == lines[0] + "\n" + Message(lines[1..])
    decreases |lines|
  {
    if |lines| > 1 {
      var init := lines[..|lines| - 1];
      var last := lines[|lines| - 1];
      MessageFirstLine(init);
      assert init[1..] == lines[1..][..|lines[1..]| - 1];
      assert lines[1..][|lines[1..]| - 1] == last;
      calc {
        Message(lines);
        Message(init) + last + "\n";
        lines[0] + "\n" + Message(init[1..]) + last + "\n";
        lines[0] + "\n" + (Message(lines[1..][..|lines[1..]| - 1]) + last + "\n");
        lines[0] + "\n" + Message(lines[1..]);
      }
    } else {
      assert lines[1..] == [];
      assert lines[..0] == [];
    }
  }

  /** The loop that reads the message file line by line and appends each
      line and a newline. */
  method ReadMessage(lines: seq<string>) returns (msg: string)
    ensures msg == Message(lines)
    ensures |lines| == 0 <==> msg == ""
    ensures |lines| > 0 ==> lines[0] + "\n" <= msg
  {
    msg := "";
    var i := 0;
    while i < |lines|
      invariant 0 <= i <= |lines|
      invariant msg == Message(lines[..i])
    {
      assert lines[..i + 1][..i] == lines[..i];
      msg := msg + lines[i] + "\n";
      i := i + 1;
    }
    assert lines[..i] == lines;
    if |lines| > 0 {
      MessageFirstLine(lines);
    }
  }

  /** `verifyCommitMessage`: demand exactly one argument after the program
      name, open the message file, and match the rebuilt message against
      the header pattern. `file` is `None` when the file did not open, and
      otherwise holds the lines the scanner yields. */
  function VerifyCommitMessage(argCount: nat, file: Option<seq<string>>): (o: Outcome)
    ensures o == Usage <==> argCount != 2
    ensures o == OpenFail <==> argCount == 2 && file.None?
    ensures o == Valid <==> argCount == 2 && file.Some? && Matches(Message(file.value))
    ensures o == Invalid <==> argCount == 2 && file.Some? && !Matches(Message(file.value))
  {
    if argCount != 2 then Usage
    else match file
      case None => OpenFail
      case Some(lines) =>
        AcceptsIffMatches(Message(lines));
        if Accepts(Message(lines)) then Valid else Invalid
  }

  /** `run`: exactly one mode runs, `-v` before `-i` before `-r` before
      validation. */
  function Run(flags: Flags, argCount: nat, fs: FileSystem, writeFault: WriteFault, removeFault: bool,
               file: Option<seq<string>>): (o: Outcome)
    ensures o == Version <==> flags.printVersion
    ensures o.Setup? <==> !flags.printVersion && flags.install
    ensures o.Remove? <==> !flags.printVersion && !flags.install && flags.remove
    ensures (o.Usage? || o.OpenFail? || o.Invalid? || o.Valid?) <==>
      !flags.printVersion && !flags.install && !flags.remove
    ensures o.Setup? ==> o.setup == SetupGitHook(fs, writeFault)
    ensures o.Remove? ==> o.remove == RemoveGitHook(fs, removeFault)
    ensures !flags.printVersion && !flags.install && !flags.remove ==>
      o == VerifyCommitMessage(argCount, file)
  {
    if flags.printVersion then Version
    else if flags.install then Setup(SetupGitHook(fs, writeFault))
    else if flags.remove then Remove(RemoveGitHook(fs, removeFault))
    else VerifyCommitMessage(argCount, file)
  }

  /** The filesystem after an invocation. */
  function FinalState(fs: FileSystem, o: Outcome): (fs': FileSystem) {
    match o
    case Setup(r) => r.after
    case Remove(r) => r.after
    case _ => fs
  }

  // ---------------------------------------------------------------------
  // Properties

  /** The process fails exactly when validation runs with one argument and
      either the file does not open or the message does not match. */
  lemma RunExitStatus(flags: Flags, argCount: nat, fs: FileSystem, writeFault: WriteFault, removeFault: bool,
                      file: Option<seq<string>>)
    ensures ExitStatus(Run(flags, argCount, fs, writeFault, removeFault, file)) == 1 <==>
      && !flags.printVersion && !flags.install && !flags.remove
      && argCount == 2
      && (file.None? || !Matches(Message(file.value)))
  {
  }

  /** Only `-i` changes the filesystem, and only where there was no hook:
      it adds a hook with the requested bits whose content is the script,
      or the part of it written before a fault, and nothing else. */
  lemma OnlyInstallWrites(flags: Flags, argCount: nat, fs: FileSystem, writeFault: WriteFault,
                            removeFault: bool, file: Option<seq<string>>)
    ensures var fs' := FinalState(fs, Run(flags, argCount, fs, writeFault, removeFault, file));
      fs' != fs ==>
        && !flags.printVersion && flags.install
        && fs.hook.None? && fs'.(hook := fs.hook) == fs
        && fs'.hook.Some? && fs'.hook.value.mode == HookMode && fs'.hook.value.content <= HookScript
  {
    var o := Run(flags, argCount, fs, writeFault, removeFault, file);
    if o.Remove? {
      RemoveNeverDeletes(fs, removeFault);
    }
  }

  /** Only the first line of the message file matters. The scanner yields
      lines without newlines; the message then passes exactly when there is
      a first line and it matches, and an empty file is rejected. */
  lemma FirstLineDecidesValidation(argCount: nat, lines: seq<string>)
    requires forall i :: 0 <= i < |lines| ==> NoNewline(lines[i])
    ensures VerifyCommitMessage(argCount, Some(lines)) == Valid <==>
      argCount == 2 && |lines| > 0 && Matches(lines[0])
    ensures argCount == 2 && lines == [] ==> VerifyCommitMessage(argCount, Some(lines)) == Invalid
  {
    if |lines| > 0 {
      MessageFirstLine(lines);
      FirstLineDecides(lines[0], Message(lines[1..]));
      AcceptsIffMatches(lines[0]);
      AcceptsIffMatches(Message(lines));
    } else {
      RejectsEmpty();
    }
  }

  /** A message file of one newline-free line passes exactly when that
      line matches. */
  lemma SingleLine(l: string)
    requires NoNewline(l)
    ensures VerifyCommitMessage(2, Some([l])) == Valid <==> Matches(l)
    ensures VerifyCommitMessage(2, Some([l])) == Invalid <==> !Matches(l)
  {
    FirstLineDecidesValidation(2, [l]);
  }

  lemma ExampleLinesNoNewline()
    ensures NoNewline("feat: add login flow")
    ensures NoNewline("fix(auth): handle null token")
    ensures NoNewline("chore!: drop legacy config")
    ensures NoNewline("Added login flow")
  {
  }

  /** The worked commit messages, each as the only line of the message file. */
  lemma ValidationExamples()
    ensures VerifyCommitMessage(2, Some(["feat: add login flow"])) == Valid
    ensures VerifyCommitMessage(2, Some(["fix(auth): handle null token"])) == Valid
    ensures VerifyCommitMessage(2, Some(["chore!: drop legacy config"])) == Valid
    ensures VerifyCommitMessage(2, Some(["Added login flow"])) == Invalid
    ensures ExitStatus(VerifyCommitMessage(2, Some(["Added login flow"]))) == 1
  {
    AcceptedExamples();
    RejectsUntyped();
    ExampleLinesNoNewline();
    SingleLine("feat: add login flow");
    SingleLine("fix(auth): handle null token");
    SingleLine("chore!: drop legacy config");
    SingleLine("Added login flow");
  }
}

=== FILE: wrappers.dfy ===
/** Value types shared by the rest of the model. */
module Wrappers {

  /** A value that may be missing. */
  datatype Option<+T> = None | Some(value: T)
}
